=== FILE: README.md ===
# orbdetpy: DMC augmentation and ephemeris resampling, modelled in Dafny

This project models the two pieces of orbdetpy's own logic that sit between
calls into the Orekit library:

* **Ephemeris resampling** (`UtilitiesService.interpolateEphemeris`): the
  request's time-tagged 6-vectors are decoded into Cartesian orbits in the
  source frame, an interpolator is built over them, and a loop walks a
  uniform time grid from `interpStart` to `interpEnd`, emitting the
  interpolated state in the destination frame at each date. Module
  `Resampling` holds the loop and the properties of the grid it produces;
  module `UtilitiesService` holds the decoding, the frame lookup and the
  whole handler.
* **Dynamic Model Compensation** (`PropagatorBuilder`): when both the DMC
  correlation time and the DMC sigma are positive, the built numerical
  propagator gets the DMC additional equations and a 3-component additional
  state (the unmodelled acceleration), seeded from the parameter drivers
  `DMC_ACC_ESTM[0..2]`. The equations' derivative is the Ornstein-Uhlenbeck
  drift `pdot[i] = -acc[i] / tau`, guarded by the builder's constructor flag
  `enableDMC`, which is independent of the configuration test. Module
  `PropagatorBuilder`.

Module `Results` holds the `Result` type used for the Java exceptions.

Abstractions:
* Dates are `real` seconds since J2000 (`AbsoluteDate = real`), and every
  duration and the division by the correlation time are exact real
  arithmetic, not IEEE-754 doubles.
* The Orekit interpolator together with its frame transform is the function
  parameter `Interpolator`; the predefined frames are a `map<string, Frame>`.
* The base propagator and the driver values left by
  `NumericalPropagatorBuilder.buildPropagator` are the result of the
  function parameter `superBuild`; the orbit part of a spacecraft state is
  an opaque vector.
* The string values of `Estimation.DMC_ACC_PROP` and `DMC_ACC_ESTM` are
  fields of `DmcNames`; Estimation.java is not part of this model.

The model follows the code in three places a reader might expect otherwise:
the step size is not validated by the code (see Findings); a missing DMC
driver surfaces as a null dereference (`NullDriver`), not as a dedicated
error; and the derivative's guard is the constructor flag, not the
configuration test.

## Model

| member | source | states |
|---|---|---|
| Resampling.Resample | orbdetpy/src/main/java/org/astria/rpc/UtilitiesService.java:84-91 | The loop ends whenever the step is positive or the end is not after the start; it emits the interpolated state at every grid date, in order; the dates form the resampling grid (first is the start, last is the end, whole steps in between, a final partial step) and there are ceil((end - start)/step) + 1 of them. |
| Resampling.GridSampleCount | orbdetpy/src/main/java/org/astria/rpc/UtilitiesService.java:84-91 | Any grid satisfying the loop's gap rules has ceil((end - start)/step) + 1 dates, and exactly one when the end is not after the start. |
| Resampling.GridPositions | orbdetpy/src/main/java/org/astria/rpc/UtilitiesService.java:90 | Accumulating whole-step gaps, every date but the last lies a whole number of steps after the start. |
| Resampling.GridStrictlyIncreasing | orbdetpy/src/main/java/org/astria/rpc/UtilitiesService.java:87-90 | The emitted dates strictly increase. |
| Resampling.GridWithinSpan | orbdetpy/src/main/java/org/astria/rpc/UtilitiesService.java:84-91 | When the end is not before the start, every emitted date lies in [start, end]. |
| Resampling.GridUnique | orbdetpy/src/main/java/org/astria/rpc/UtilitiesService.java:84-91 | The grid is determined by start, end and step: two sequences that both satisfy the loop's rules are equal. |
| Resampling.NeverBreaksWithoutPositiveStep | orbdetpy/src/main/java/org/astria/rpc/UtilitiesService.java:87-90 | As written: with a step that is not positive and an end after the start, the date never passes the start and the remaining duration stays positive after any number of passes, so the break is never taken. |
| Resampling.ResampleChecked | orbdetpy/src/main/java/org/astria/rpc/UtilitiesService.java:84-91 | Corrected loop: fails with NonPositiveStep exactly when the step is not positive and the end is after the start; otherwise returns the same grid and samples as the loop. |
| UtilitiesService.DecodeSample | orbdetpy/src/main/java/org/astria/rpc/UtilitiesService.java:73-77 | A decoded sample is dated J2000 + time(i), its position and velocity give back components 0-5 of the 6-vector, and it is a Cartesian orbit in the source frame with the EGM96 gravitational parameter. |
| UtilitiesService.DecodeEncode | orbdetpy/src/main/java/org/astria/rpc/UtilitiesService.java:73-77 | Decoding the date offset and 6-vector of a state gives back that state. |
| UtilitiesService.DecodeStates | orbdetpy/src/main/java/org/astria/rpc/UtilitiesService.java:70-78 | Decoding succeeds exactly when every one of the timeCount samples has a 6-vector of at least six components and, if there is any sample, the source frame is pseudo-inertial; it then yields one decoded state per time entry, in order. Otherwise it fails at the first unreadable sample, or, when the first sample is readable, because the frame is not pseudo-inertial. |
| UtilitiesService.InterpolateEphemeris | orbdetpy/src/main/java/org/astria/rpc/UtilitiesService.java:64-95 | The handler fails on an unknown source frame, then an unknown destination frame, then an unreadable sample 0, then a source frame that is not pseudo-inertial, then the first unreadable later sample, then a step that cannot advance, and reports each of these only when it is the cause; otherwise it returns, for every grid date, the interpolant over the decoded states evaluated at that date in the destination frame. |
| PropagatorBuilder.DmcEnabled | orbdetpy/src/main/java/org/astria/PropagatorBuilder.java:47 | Whenever the configuration test holds, the correlation time the drift at line 74 divides by is non-zero, so the division is defined on every propagator built with DMC. |
| PropagatorBuilder.GetName | orbdetpy/src/main/java/org/astria/PropagatorBuilder.java:60-63 | getName returns the name of the additional state the equations read: with enableDMC, a state holding (1, 2, 3) under that name yields the contribution (0, 0, 0, 1, 2, 3). |
| PropagatorBuilder.DriverValues | orbdetpy/src/main/java/org/astria/PropagatorBuilder.java:50-53 | Looking drivers up in order succeeds exactly when all exist, returning their values in order; otherwise it fails with the first name that has no driver. |
| PropagatorBuilder.BuildPropagator | orbdetpy/src/main/java/org/astria/PropagatorBuilder.java:44-56 | Without DMC enabled by the configuration the base propagator is returned unchanged; with it, the build succeeds exactly when the three DMC drivers exist, and then the DMC equations are attached last and the initial state gains the DMC state equal to DMC_ACC_ESTM[0], [1], [2] in that order, all else unchanged. |
| PropagatorBuilder.DmcStatePresentIffEnabled | orbdetpy/src/main/java/org/astria/PropagatorBuilder.java:46-55 | The DMC state and equations are present in a built propagator if and only if both correlation time and sigma are positive; the state then has three components and the correlation time the drift divides by is positive. |
| PropagatorBuilder.ComputeDerivatives | orbdetpy/src/main/java/org/astria/PropagatorBuilder.java:65-83 | The acceleration contribution always has six components, the first three zero; with enableDMC the last three are the DMC state and tau * pdot[i] = -acc[i]; without it everything is zero; only pdot[0..2] change; a missing DMC state or short array is an error. |
| PropagatorBuilder.SeededStateFeedsDerivative | orbdetpy/src/main/java/org/astria/PropagatorBuilder.java:49-75 | The name the equations report is the one seeded and the one read: on the initial state of a DMC propagator the derivative sees exactly the seeded driver values (or is zero when enableDMC is clear). |
| PropagatorBuilder.MeanReversion | orbdetpy/src/main/java/org/astria/PropagatorBuilder.java:71-75 | With a positive correlation time, each drift component has the sign opposite to its acceleration component and vanishes exactly when it does. |
| PropagatorBuilder.EulerStepContracts | orbdetpy/src/main/java/org/astria/PropagatorBuilder.java:74 | An Euler step of length up to twice the correlation time along the drift never increases the magnitude of a DMC component. |

## Findings

| source | as written | input that shows it | evidently intended | confidence | as-written member | corrected member |
|---|---|---|---|---|---|---|
| orbdetpy/src/main/java/org/astria/rpc/UtilitiesService.java:87-90 | The loop never checks the step size; with a step that is not positive and interpEnd after interpStart the remaining duration stays positive, the break is never reached and the output list grows until memory runs out. | interpStart = 0, interpEnd = 1, stepSize = 0 (the date stays at 0 forever) | Reject a step that is not positive when interpEnd is after interpStart, the requests on which the loop can never reach its break. | medium; not executed | Resampling.NeverBreaksWithoutPositiveStep | Resampling.ResampleChecked |

`Resampling.Resample` models the loop as written and therefore requires the
step to be positive or the end not after the start, which is exactly the set
of requests for which the loop reaches its break. `UtilitiesService.InterpolateEphemeris`
uses the corrected `ResampleChecked` and reports `InvalidStepSize` where the
code would loop.

## Left out

- gRPC transport: `importTDM`, the response building, `StreamObserver` calls and the wrapping of exceptions into `StatusRuntimeException`; errors are returned as `Result` failures instead.
- TDM file parsing and `examples/run_tests.py`: file I/O and asynchronous driving, with no logic of this core.
- The Orekit `Ephemeris` interpolator, its "not enough points" failure and its frame transforms: a function parameter whose values are not constrained.
- Frame resolution through `Predefined.valueOf` and `FramesFactory.getFrame`: a lookup in a map parameter.
- `NumericalPropagatorBuilder.buildPropagator`, the force models and how `par` reaches the parameter drivers: the function parameter `superBuild`.
- Orekit's refusal to attach additional equations under a name already in use: the base propagator is fresh and carries no equations.
- UtilitiesService.DecodeStates: the only failure of the Orbit constructor modelled is the frame that is not pseudo-inertial; its other argument checks are not modelled.
- UtilitiesService.InterpolateEphemeris: failures inside Orekit after decoding are not modelled (the Ephemeris constructor's "not enough points", and an evaluation or frame transform that fails at a grid date), so the model reports success on some requests the program fails.
- IEEE-754 arithmetic of `AbsoluteDate.shiftedBy`, `durationFrom` and the division by tau: real arithmetic, so the last grid date lands exactly on the end.
- PropagatorBuilder.ComputeDerivatives: requires a non-zero correlation time when enableDMC is set, because real division cannot express the infinities and NaNs Java produces there; through BuildPropagator the equations are only attached with a positive correlation time. On an index-out-of-bounds failure the model returns no buffer, while Java has already written the components of pdot before the failing index (pdot[0] when the DMC state has one component, pdot[0..1] when pdot has two).
- PropagatorBuilder.EulerStepContracts: states one component per call; the statement for all three is its instance at 0, 1 and 2.

=== FILE: propagator_builder.dfy ===
/** PropagatorBuilder: Orekit's numerical propagator builder extended with
    Dynamic Model Compensation (DMC). When both the DMC correlation time and
    the DMC sigma are positive, the built propagator carries a 3-component
    additional state, the unmodelled acceleration, seeded from the estimated
    parameter drivers and driven by the DMC equations, whose drift is the
    Ornstein-Uhlenbeck mean reversion acc' = -acc / tau. */
module PropagatorBuilder {
  import opened Results

  /** The two DMC settings of the orbit-determination configuration. */
  datatype Settings = Settings(estmDMCCorrTime: real, estmDMCSigmaPert: real)

  /** The names shared with the estimator: Estimation.DMC_ACC_PROP, under which
      the acceleration is an additional state, and Estimation.DMC_ACC_ESTM[0..2],
      the parameter drivers holding its estimated initial value. Their string
      values are defined in Estimation.java, which is not part of this model. */
  datatype DmcNames = DmcNames(accProp: string, accEstm0: string, accEstm1: string, accEstm2: string)

  /** A spacecraft state: the orbit, kept abstract, and the additional states by name. */
  datatype SpacecraftState = SpacecraftState(orbit: seq<real>, additional: map<string, seq<real>>)

  /** A numerical propagator: its initial state and the names of the
      additional equations attached to it, in attachment order. */
  datatype NumericalPropagator = NumericalPropagator(initialState: SpacecraftState, equations: seq<string>)

  /** What NumericalPropagatorBuilder.buildPropagator leaves behind: the
      propagator, and the values of the builder's propagation parameter drivers. */
  datatype BaseBuild = BaseBuild(propagator: NumericalPropagator, drivers: map<string, real>)

  /** The builder's own fields: the configuration, the constructor flag that
      guards the derivative, and the shared names. */
  datatype Builder = Builder(odCfg: Settings, enableDMC: bool, names: DmcNames)

  /** A driver looked up by name is absent (findByName returns null and the
      value read throws). */
  datatype BuildError = NullDriver(name: string)

  /** getAdditionalState on a name the state does not carry, or an array
      read or written past its end. */
  datatype DerivativeError = UnknownAdditionalState(name: string) | ArrayIndexOutOfBounds

  /** The result of computeDerivatives: the returned 6-component acceleration
      contribution, and the derivative buffer as it is after the call. */
  datatype Derivatives = Derivatives(accEci: seq<real>, pdot: seq<real>)

  /** The configuration test of buildPropagator: both settings positive. A
      configuration with only one of them set leaves DMC off without
      complaint. Whenever it holds, the correlation time the DMC drift
      divides by is non-zero. */
  function DmcEnabled(cfg: Settings): (enabled: bool)
    ensures enabled ==> cfg.estmDMCCorrTime != 0.0
  {
    cfg.estmDMCCorrTime > 0.0 && cfg.estmDMCSigmaPert > 0.0
  }

  /** The drivers seeding the DMC state, in seeding order. */
  function EstimateNames(names: DmcNames): (s: seq<string>)
    ensures |s| == 3
  {
    [names.accEstm0, names.accEstm1, names.accEstm2]
  }

  /** Every driver seeding the DMC state exists. */
  predicate DriversPresent(names: DmcNames, drivers: map<string, real>) {
    names.accEstm0 in drivers && names.accEstm1 in drivers && names.accEstm2 in drivers
  }

  /** The values of the drivers named in `names`, looked up one after the
      other; the first name without a driver ends the lookup. */
  function DriverValues(names: seq<string>, drivers: map<string, real>): (r: Result<seq<real>, BuildError>)
    ensures r.Success? <==> forall i :: 0 <= i < |names| ==> names[i] in drivers
    ensures r.Success? ==> |r.value| == |names|
    ensures r.Success? ==> forall i :: 0 <= i < |names| ==> r.value[i] == drivers[names[i]]
    ensures r.Failure? ==> exists k :: 0 <= k < |names| && r.error == NullDriver(names[k]) && names[k] !in drivers
                                        && forall i :: 0 <= i < k ==> names[i] in drivers
  {
    if |names| == 0 then Success([])
    else if names[0] !in drivers then Failure(NullDriver(names[0]))
    else
      var rest :- DriverValues(names[1..], drivers);
      Success([drivers[names[0]]] + rest)
  }

  /** The state `base` with the DMC state `seed` added under `name` (an
      existing entry of that name is replaced, as addAdditionalState does). */
  function AddAdditionalState(base: SpacecraftState, name: string, seed: seq<real>): SpacecraftState {
    base.(additional := base.additional[name := seed])
  }

  /** `p` is `base` augmented with DMC: the equations named `eqName` are
      attached last, the initial state carries `seed` under `name`, and the
      orbit and every other additional state are those of `base`. */
  predicate IsDmcAugmentation(base: NumericalPropagator, p: NumericalPropagator, eqName: string, name: string, seed: seq<real>) {
    && p.equations == base.equations + [eqName]
    && p.initialState.orbit == base.initialState.orbit
    && name in p.initialState.additional
    && p.initialState.additional[name] == seed
    && p.initialState.additional.Keys == base.initialState.additional.Keys + {name}
    && forall k :: k in base.initialState.additional && k != name ==>
         p.initialState.additional[k] == base.initialState.additional[k]
  }

  /** PropagatorBuilder.buildPropagator (lines 44-56): the base propagator is
      built from `par` unchanged; when DMC is enabled by the configuration
      the DMC equations are attached and the DMC state is seeded with the
      drivers DMC_ACC_ESTM[0], [1], [2], in that order. */
  function BuildPropagator(b: Builder, par: seq<real>, superBuild: seq<real> -> BaseBuild): (r: Result<NumericalPropagator, BuildError>)
    ensures !DmcEnabled(b.odCfg) ==> r == Success(superBuild(par).propagator)
    ensures DmcEnabled(b.odCfg) ==>
      (r.Success? <==> DriversPresent(b.names, superBuild(par).drivers))
    ensures DmcEnabled(b.odCfg) && r.Success? ==>
      var d := superBuild(par).drivers;
      IsDmcAugmentation(superBuild(par).propagator, r.value, GetName(b), b.names.accProp,
                        [d[b.names.accEstm0], d[b.names.accEstm1], d[b.names.accEstm2]])
    ensures r.Failure? ==> r.error.name in EstimateNames(b.names) && r.error.name !in superBuild(par).drivers
  {
    var base := superBuild(par);
    if DmcEnabled(b.odCfg) then
      var seed :- DriverValues(EstimateNames(b.names), base.drivers);
      var p := base.propagator;
      assert EstimateNames(b.names)[1] in base.drivers && EstimateNames(b.names)[2] in base.drivers;
      Success(NumericalPropagator(AddAdditionalState(p.initialState, b.names.accProp, seed), p.equations + [GetName(b)]))
    else
      Success(base.propagator)
  }

  /** The DMC acceleration a state carries, when it carries one. */
  function DmcAcceleration(b: Builder, sta: SpacecraftState): seq<real>
    requires b.names.accProp in sta.additional
  {
    sta.additional[b.names.accProp]
  }

  /** DMCEquations.computeDerivatives (lines 65-83). With the constructor
      flag set, it reads the DMC state under the equations' own name, returns
      the acceleration contribution (0, 0, 0, acc0, acc1, acc2) and sets
      pdot[i] so that tau * pdot[i] = -acc[i]; with the flag clear it returns
      zeros and zeroes pdot[0..2]. Only pdot[0..2] are written. */
  function ComputeDerivatives(b: Builder, sta: SpacecraftState, pdot: seq<real>): (r: Result<Derivatives, DerivativeError>)
    requires b.enableDMC ==> b.odCfg.estmDMCCorrTime != 0.0
    ensures r.Success? ==> |r.value.accEci| == 6 && forall i :: 0 <= i < 3 ==> r.value.accEci[i] == 0.0
    ensures r.Success? ==> |r.value.pdot| == |pdot| && forall j :: 3 <= j < |pdot| ==> r.value.pdot[j] == pdot[j]
    ensures b.enableDMC && b.names.accProp !in sta.additional ==> r == Failure(UnknownAdditionalState(b.names.accProp))
    ensures b.enableDMC && b.names.accProp in sta.additional ==>
      (r.Success? <==> 3 <= |DmcAcceleration(b, sta)| && 3 <= |pdot|)
    ensures b.enableDMC && r.Success? ==> forall i :: 0 <= i < 3 ==>
      && r.value.accEci[i + 3] == DmcAcceleration(b, sta)[i]
      && b.odCfg.estmDMCCorrTime * r.value.pdot[i] == -DmcAcceleration(b, sta)[i]
    ensures !b.enableDMC ==> (r.Success? <==> 3 <= |pdot|)
    ensures !b.enableDMC && r.Success? ==>
      (forall i :: 0 <= i < 6 ==> r.value.accEci[i] == 0.0) && forall i :: 0 <= i < 3 ==> r.value.pdot[i] == 0.0
    ensures (b.enableDMC ==> b.names.accProp in sta.additional) && r.Failure? ==> r.error == ArrayIndexOutOfBounds
    ensures r.Failure? && r.error.ArrayIndexOutOfBounds? ==> |pdot| < 3 || (b.enableDMC && |DmcAcceleration(b, sta)| < 3)
  {
    if b.enableDMC then
      var name := b.names.accProp;
      if name !in sta.additional then Failure(UnknownAdditionalState(name))
      else
        var acc := sta.additional[name];
        if |acc| < 3 || |pdot| < 3 then Failure(ArrayIndexOutOfBounds)
        else
          var tau := b.odCfg.estmDMCCorrTime;
          Success(Derivatives([0.0, 0.0, 0.0, acc[0], acc[1], acc[2]],
                              [-acc[0] / tau, -acc[1] / tau, -acc[2] / tau] + pdot[3..]))
    else if |pdot| < 3 then Failure(ArrayIndexOutOfBounds)
    else Success(Derivatives([0.0, 0.0, 0.0, 0.0, 0.0, 0.0], [0.0, 0.0, 0.0] + pdot[3..]))
  }

  /** DMCEquations.getName: the name of the additional state the equations
      integrate, which is the state computeDerivatives reads. A state
      carrying (1, 2, 3) under this name, and nothing else, yields the
      acceleration contribution (0, 0, 0, 1, 2, 3). */
  function GetName(b: Builder): (name: string)
    ensures b.enableDMC && b.odCfg.estmDMCCorrTime != 0.0 ==>
      var r := ComputeDerivatives(b, SpacecraftState([], map[name := [1.0, 2.0, 3.0]]), [0.0, 0.0, 0.0]);
      r.Success? && r.value.accEci == [0.0, 0.0, 0.0, 1.0, 2.0, 3.0]
  {
    b.names.accProp
  }

  /** The DMC state and equations are present in a built propagator exactly
      when the configuration enables DMC, the state then has three
      components, and the correlation time the equations divide by is
      positive. */
  lemma DmcStatePresentIffEnabled(b: Builder, par: seq<real>, superBuild: seq<real> -> BaseBuild)
    requires GetName(b) !in superBuild(par).propagator.initialState.additional
    requires GetName(b) !in superBuild(par).propagator.equations
    requires BuildPropagator(b, par, superBuild).Success?
    ensures var p := BuildPropagator(b, par, superBuild).value;
      && (GetName(b) in p.initialState.additional <==> DmcEnabled(b.odCfg))
      && (GetName(b) in p.equations <==> DmcEnabled(b.odCfg))
      && (GetName(b) in p.initialState.additional ==> |p.initialState.additional[GetName(b)]| == 3)
      && (GetName(b) in p.equations ==> b.odCfg.estmDMCCorrTime > 0.0)
  {
  }

  /** The name the equations report is the name the build seeds and the name
      the derivative reads: on the initial state of a DMC propagator the
      derivative sees exactly the seeded driver values. With the constructor
      flag clear the derivative is zero, so the seeded state stays put. */
  lemma SeededStateFeedsDerivative(b: Builder, par: seq<real>, superBuild: seq<real> -> BaseBuild, pdot: seq<real>)
    requires DmcEnabled(b.odCfg)
    requires BuildPropagator(b, par, superBuild).Success?
    requires 3 <= |pdot|
    ensures var d := superBuild(par).drivers;
      var seed := [d[b.names.accEstm0], d[b.names.accEstm1], d[b.names.accEstm2]];
      var r := ComputeDerivatives(b, BuildPropagator(b, par, superBuild).value.initialState, pdot);
      && r.Success?
      && (b.enableDMC ==> r.value.accEci == [0.0, 0.0, 0.0] + seed)
      && (b.enableDMC ==> forall i :: 0 <= i < 3 ==> b.odCfg.estmDMCCorrTime * r.value.pdot[i] == -seed[i])
      && (!b.enableDMC ==> r.value.accEci == [0.0, 0.0, 0.0, 0.0, 0.0, 0.0] && r.value.pdot[..3] == [0.0, 0.0, 0.0])
  {
  }

  /** Mean reversion: with a positive correlation time the drift of each
      component has the sign opposite to the component, and vanishes with it. */
  lemma MeanReversion(b: Builder, sta: SpacecraftState, pdot: seq<real>)
    requires b.enableDMC && b.odCfg.estmDMCCorrTime > 0.0
    requires ComputeDerivatives(b, sta, pdot).Success?
    ensures var acc := DmcAcceleration(b, sta);
      var drift := ComputeDerivatives(b, sta, pdot).value.pdot;
      forall i :: 0 <= i < 3 ==>
        && (acc[i] > 0.0 <==> drift[i] < 0.0)
        && (acc[i] < 0.0 <==> drift[i] > 0.0)
        && (acc[i] == 0.0 <==> drift[i] == 0.0)
  {
  }

  /** An explicit Euler step of length h, 0 <= h <= 2 tau, along the drift
      never increases the magnitude of a DMC component: the unmodelled
      acceleration decays towards zero. */
  lemma EulerStepContracts(b: Builder, sta: SpacecraftState, pdot: seq<real>, h: real, i: nat)
    requires b.enableDMC && b.odCfg.estmDMCCorrTime > 0.0
    requires 0.0 <= h <= 2.0 * b.odCfg.estmDMCCorrTime
    requires ComputeDerivatives(b, sta, pdot).Success?
    requires i < 3
    ensures var a := DmcAcceleration(b, sta)[i];
      Abs(a + h * ComputeDerivatives(b, sta, pdot).value.pdot[i]) <= Abs(a)
  {
    var r := ComputeDerivatives(b, sta, pdot);
    var tau, p, a := b.odCfg.estmDMCCorrTime, r.value.pdot[i], DmcAcceleration(b, sta)[i];
    assert tau * p == -a;
    EulerContracts(tau, h, p, a);
  }

  /** The magnitude of a real. */
  function Abs(x: real): real {
    if x < 0.0 then -x else x
  }

  /** One component of the Euler step: a + h * p = a * (1 - h / tau), and the
      factor lies in [-1, 1]. */
  lemma EulerContracts(tau: real, h: real, p: real, a: real)
    requires tau > 0.0 && 0.0 <= h <= 2.0 * tau && tau * p == -a
    ensures Abs(a + h * p) <= Abs(a)
  {
  }
}

=== FILE: resampling.dfy ===
/** The time-stepping loop of UtilitiesService.interpolateEphemeris: starting at
    the requested start date it emits one sample per step and finishes with a
    sample at the end date exactly. Dates are real numbers of seconds since
    the J2000 epoch; the interpolant that turns a date into a state is a
    function parameter. */
module Resampling {
  import opened Results

  /** A date, as seconds elapsed since the J2000 epoch. */
  type AbsoluteDate = real

  const J2000_EPOCH: AbsoluteDate := 0.0

  /** AbsoluteDate.shiftedBy and the AbsoluteDate(date, offset) constructor. */
  function ShiftedBy(d: AbsoluteDate, dt: real): AbsoluteDate {
    d + dt
  }

  /** AbsoluteDate.durationFrom: seconds from `other` to `d`. */
  function DurationFrom(d: AbsoluteDate, other: AbsoluteDate): real {
    d - other
  }

  /** FastMath.min on two (non-NaN) values. */
  function Min(a: real, b: real): real {
    if a <= b then a else b
  }

  /** The least integer not below x. */
  function Ceil(x: real): (c: int)
    ensures x <= c as real < x + 1.0
  {
    -((-x).Floor)
  }

  /** The number of samples the loop emits: ceil((end - start) / step) + 1,
      and a single sample when the end is not after the start. */
  function SampleCount(start: AbsoluteDate, end: AbsoluteDate, step: real): (n: nat)
    requires 0.0 < step || end <= start
    ensures 1 <= n
    ensures start < end ==> 2 <= n
  {
    if end <= start then 1 else Ceil((end - start) / step) + 1
  }

  /** The sample dates the loop produces: the first is the start; after it
      every gap is exactly one step, except the last gap, which is positive
      and at most one step and lands exactly on the end; when the end is not
      after the start there is one sample only. */
  predicate IsResampleGrid(times: seq<AbsoluteDate>, start: AbsoluteDate, end: AbsoluteDate, step: real)
  {
    && 0 < |times|
    && times[0] == start
    && (end <= start ==> |times| == 1)
    && (start <= end ==> times[|times| - 1] == end)
    && (forall i :: 0 < i < |times| - 1 ==> times[i] - times[i - 1] == step)
    && (1 < |times| ==> 0.0 < times[|times| - 1] - times[|times| - 2] <= step)
  }

  /** The loop itself (UtilitiesService.java, lines 80-91): emit the state at
      `tm`, stop once the end is not after `tm`, else advance `tm` by the
      smaller of the remaining duration and the step. The loop leaves only
      through its break, which it reaches exactly when the step is positive
      or the end is not after the start. */
  method Resample<PV>(start: AbsoluteDate, end: AbsoluteDate, step: real, pvAt: AbsoluteDate -> PV)
    returns (times: seq<AbsoluteDate>, output: seq<PV>)
    requires 0.0 < step || end <= start
    ensures IsResampleGrid(times, start, end, step)
    ensures |times| == SampleCount(start, end, step)
    ensures |output| == |times|
    ensures forall i :: 0 <= i < |times| ==> output[i] == pvAt(times[i])
  {
    var tm := start;
    times, output := [], [];
    ghost var n := SampleCount(start, end, step);
    while true
      invariant |output| == |times| < n
      invariant forall i :: 0 <= i < |times| ==> output[i] == pvAt(times[i])
      invariant forall i :: 0 <= i < |times| ==> times[i] == start + (i as real) * step
      invariant |times| == 0 ==> tm == start
      invariant 0 < |times| ==> 0.0 < step && times[|times| - 1] < tm <= end
      invariant 0 < |times| ==> tm - times[|times| - 1] <= step
      invariant tm == start + (|times| as real) * step || tm == end
      invariant tm == DateAfter(start, end, step, |times|)
      decreases n - |times|
    {
      times := times + [tm];
      output := output + [pvAt(tm)];
      var deltat := DurationFrom(end, tm);
      if deltat <= 0.0 {
        GridFromPositions(times, start, end, step);
        break;
      }
      assert tm == start + ((|times| - 1) as real) * step;
      IndexBelowCount(start, end, step, |times| - 1);
      tm := ShiftedBy(tm, Min(deltat, step));
    }
    GridSampleCount(times, start, end, step);
  }

  /** Closing step of the loop proof: dates laid out at whole steps from the
      start, followed by the end, form the grid. */
  lemma GridFromPositions(times: seq<AbsoluteDate>, start: AbsoluteDate, end: AbsoluteDate, step: real)
    requires 0 < |times|
    requires forall i :: 0 <= i < |times| - 1 ==> times[i] == start + (i as real) * step
    requires |times| == 1 ==> times[0] == start && end <= start
    requires 1 < |times| ==> times[|times| - 1] == end
    requires 1 < |times| ==> times[|times| - 2] < end && end - times[|times| - 2] <= step
    ensures IsResampleGrid(times, start, end, step)
  {
  }

  /** Integer multiples of a positive step keep the order of the multipliers. */
  lemma MulStrictMono(a: real, b: real, s: real)
    requires a < b && 0.0 < s
    ensures a * s < b * s
  {
  }

  /** Dividing by a positive quantity. */
  lemma BelowQuotient(a: real, d: real, s: real)
    requires 0.0 < s
    ensures a * s < d <==> a < d / s
    ensures a * s <= d <==> a <= d / s
  {
  }

  /** A sample emitted strictly before the end has a successor: the index of
      any whole-step date before the end is below the count less one. */
  lemma IndexBelowCount(start: AbsoluteDate, end: AbsoluteDate, step: real, j: nat)
    requires 0.0 < step
    requires start + (j as real) * step < end
    ensures j + 1 < SampleCount(start, end, step)
  {
    var x := (end - start) / step;
    BelowQuotient(j as real, end - start, step);
    assert j as real < x;
    if j as real * step < 0.0 {
      MulStrictMono(j as real, 0.0, step);
    }
    assert start < end;
  }

  /** The gaps of a grid add up: every date but the last sits a whole number
      of steps after the start. */
  lemma {:induction false} GridPositions(times: seq<AbsoluteDate>, start: AbsoluteDate, end: AbsoluteDate, step: real)
    requires IsResampleGrid(times, start, end, step)
    ensures forall i :: 0 <= i < |times| - 1 ==> times[i] == start + (i as real) * step
  {
    forall i | 0 <= i < |times| - 1
      ensures times[i] == start + (i as real) * step
    {
      PositionAt(times, start, end, step, i);
    }
  }

  /** GridPositions for one index, by induction on it. */
  lemma {:induction false} PositionAt(times: seq<AbsoluteDate>, start: AbsoluteDate, end: AbsoluteDate, step: real, i: nat)
    requires IsResampleGrid(times, start, end, step)
    requires i < |times| - 1
    ensures times[i] == start + (i as real) * step
  {
    if i > 0 {
      PositionAt(times, start, end, step, i - 1);
      assert times[i] - times[i - 1] == step;
      assert (i as real) * step == ((i - 1) as real) * step + step;
    }
  }

  /** The number of samples is ceil((end - start) / step) + 1 (one when the
      end is not after the start). */
  lemma GridSampleCount(times: seq<AbsoluteDate>, start: AbsoluteDate, end: AbsoluteDate, step: real)
    requires 0.0 < step || end <= start
    requires IsResampleGrid(times, start, end, step)
    ensures |times| == SampleCount(start, end, step)
  {
    if start < end {
      var n := |times|;
      assert 2 <= n;
      GridPositions(times, start, end, step);
      var a := (n - 2) as real;
      assert times[n - 2] == start + a * step;
      QuotientBetween(a, end - start, step);
      var x := (end - start) / step;
      CeilBetween(n - 1, x);
    }
  }

  /** If d overshoots a whole steps but not a + 1, then d / step lies in (a, a + 1]. */
  lemma QuotientBetween(a: real, d: real, step: real)
    requires 0.0 < step
    requires a * step < d <= a * step + step
    ensures a < d / step <= a + 1.0
  {
    var x := d / step;
    assert x * step == d;
    if x <= a {
      if x < a {
        MulStrictMono(x, a, step);
      }
    }
    assert (a + 1.0) * step == a * step + step;
    if a + 1.0 < x {
      MulStrictMono(a + 1.0, x, step);
    }
  }

  /** Ceil(x) is m for every x in (m - 1, m]. */
  lemma CeilBetween(m: int, x: real)
    requires (m - 1) as real < x <= m as real
    ensures Ceil(x) == m
  {
  }

  /** Emitted dates strictly increase. */
  lemma GridStrictlyIncreasing(times: seq<AbsoluteDate>, start: AbsoluteDate, end: AbsoluteDate, step: real)
    requires IsResampleGrid(times, start, end, step)
    ensures forall i, j :: 0 <= i < j < |times| ==> times[i] < times[j]
  {
    var n := |times|;
    if 1 < n {
      assert times[1] - times[0] > 0.0;
      assert 0.0 < step by {
        if n == 2 {
        } else {
          assert times[1] - times[0] == step;
        }
      }
      GridPositions(times, start, end, step);
      forall i, j | 0 <= i < j < n
        ensures times[i] < times[j]
      {
        if j < n - 1 {
          GridPairIncreasing(times, start, end, step, i, j);
        } else if i < n - 2 {
          GridPairIncreasing(times, start, end, step, i, n - 2);
        }
      }
    }
  }

  /** Two whole-step dates keep the order of their indices. */
  lemma GridPairIncreasing(times: seq<AbsoluteDate>, start: AbsoluteDate, end: AbsoluteDate, step: real, i: nat, j: nat)
    requires 0.0 < step
    requires i < j < |times| - 1
    requires forall k :: 0 <= k < |times| - 1 ==> times[k] == start + (k as real) * step
    ensures times[i] < times[j]
  {
  }

  /** When the end is not before the start, every emitted date lies between
      the two, both included. */
  lemma GridWithinSpan(times: seq<AbsoluteDate>, start: AbsoluteDate, end: AbsoluteDate, step: real)
    requires IsResampleGrid(times, start, end, step)
    requires start <= end
    ensures forall i :: 0 <= i < |times| ==> start <= times[i] <= end
  {
    GridStrictlyIncreasing(times, start, end, step);
    forall i | 0 <= i < |times|
      ensures start <= times[i] <= end
    {
      if 0 < i {
        assert times[0] < times[i];
      }
      if i < |times| - 1 {
        assert times[i] < times[|times| - 1];
      }
    }
  }

  /** A grid is determined by its start, end and step: the loop has exactly
      one possible output. */
  lemma GridUnique(a: seq<AbsoluteDate>, b: seq<AbsoluteDate>, start: AbsoluteDate, end: AbsoluteDate, step: real)
    requires 0.0 < step || end <= start
    requires IsResampleGrid(a, start, end, step)
    requires IsResampleGrid(b, start, end, step)
    ensures a == b
  {
    GridSampleCount(a, start, end, step);
    GridSampleCount(b, start, end, step);
    GridPositions(a, start, end, step);
    GridPositions(b, start, end, step);
    if 1 < |a| {
      assert start <= end;
    }
  }

  /** One pass of the loop body that does not break: the next sample date
      (the loop invariant of Resample keeps its date equal to DateAfter). */
  function NextDate(tm: AbsoluteDate, end: AbsoluteDate, step: real): AbsoluteDate {
    ShiftedBy(tm, Min(DurationFrom(end, tm), step))
  }

  /** The date the loop holds after `k` passes that did not break. */
  function DateAfter(start: AbsoluteDate, end: AbsoluteDate, step: real, k: nat): AbsoluteDate {
    if k == 0 then start else NextDate(DateAfter(start, end, step, k - 1), end, step)
  }

  /** As written the loop does not look at the sign of the step: when the
      step is not positive and the end is after the start, the remaining
      duration is positive at every check, so the break is never taken and
      the output list grows without bound. With start 0, end 1 and step 0 the
      date stays at 0 forever. */
  lemma {:induction false} NeverBreaksWithoutPositiveStep(start: AbsoluteDate, end: AbsoluteDate, step: real, k: nat)
    requires step <= 0.0 && start < end
    ensures DateAfter(start, end, step, k) <= start
    ensures 0.0 < DurationFrom(end, DateAfter(start, end, step, k))
  {
    if k > 0 {
      NeverBreaksWithoutPositiveStep(start, end, step, k - 1);
    }
  }

  datatype ResampleError = NonPositiveStep(step: real)

  datatype Resampled<PV> = Resampled(times: seq<AbsoluteDate>, output: seq<PV>)

  /** The loop with the step checked first: a request whose loop could never
      reach its break is refused with an error instead; every other request
      is resampled exactly as the loop does. */
  method ResampleChecked<PV>(start: AbsoluteDate, end: AbsoluteDate, step: real, pvAt: AbsoluteDate -> PV)
    returns (r: Result<Resampled<PV>, ResampleError>)
    ensures r.Failure? <==> step <= 0.0 && start < end
    ensures r.Failure? ==> r.error == NonPositiveStep(step)
    ensures r.Success? ==> IsResampleGrid(r.value.times, start, end, step)
    ensures r.Success? ==> |r.value.times| == SampleCount(start, end, step)
    ensures r.Success? ==> |r.value.output| == |r.value.times|
    ensures r.Success? ==> forall i :: 0 <= i < |r.value.times| ==> r.value.output[i] == pvAt(r.value.times[i])
  {
    if step <= 0.0 && start < end {
      return Failure(NonPositiveStep(step));
    }
    var times, output := Resample(start, end, step, pvAt);
    return Success(Resampled(times, output));
  }
}

=== FILE: results.dfy ===
/** The outcome of an operation that can fail the way the Java code throws:
    either a value or the error that ended the computation. */
module Results {

  datatype Result<+T, +E> = Success(value: T) | Failure(error: E) {

    predicate IsFailure() {
      Failure?
    }

    function PropagateFailure<U>(): Result<U, E>
      requires Failure?
    {
      Failure(error)
    }

    function Extract(): T
      requires Success?
    {
      value
    }
  }
}

=== FILE: utilities_service.dfy ===
/** UtilitiesService.interpolateEphemeris: resolve the two frames, decode the
    request's time-tagged 6-vectors into Cartesian orbits, then resample the
    interpolated trajectory on a uniform grid in the destination frame. The
    Orekit interpolator, with its frame transform, is a function parameter;
    the table of predefined frames is a map parameter. */
module UtilitiesService {
  import opened Results
  import opened Resampling

  /** Orekit's Constants.EGM96_EARTH_MU, in m^3/s^2. */
  const EGM96_EARTH_MU: real := 398600441500000.0

  datatype Vector3D = Vector3D(x: real, y: real, z: real)

  datatype TimeStampedPVCoordinates = TimeStampedPVCoordinates(date: AbsoluteDate, position: Vector3D, velocity: Vector3D)

  /** A predefined frame: its name, and whether Orekit accepts it as the
      frame of an orbit (pseudo-inertial). */
  datatype Frame = Frame(name: string, pseudoInertial: bool)

  datatype CartesianOrbit = CartesianOrbit(pv: TimeStampedPVCoordinates, frame: Frame, mu: real)

  /** The fields of Messages.InterpolateEphemerisInput the handler reads:
      `time[i]` is an offset in seconds from J2000 and `ephem[i]` the
      position (components 0-2) and velocity (components 3-5) at that time. */
  datatype InterpolateEphemerisInput = InterpolateEphemerisInput(
    sourceFrame: string,
    destFrame: string,
    time: seq<real>,
    ephem: seq<seq<real>>,
    numPoints: int,
    interpStart: real,
    interpEnd: real,
    stepSize: real)

  /** The failures the handler reports: an unknown frame name (Predefined.valueOf),
      a sample whose 6-vector is missing or short (an index out of bounds),
      an orbit built in a frame that is not pseudo-inertial (the Orbit
      constructor refuses it), and a step that cannot advance the loop. */
  datatype ServiceError =
    | UnknownFrame(name: string)
    | MalformedSample(index: nat)
    | NonInertialFrame(name: string)
    | InvalidStepSize(stepSize: real)

  /** The Orekit ephemeris built from the decoded states and the number of
      interpolation points, evaluated at a date and transformed to a frame. */
  type Interpolator = (seq<CartesianOrbit>, int, AbsoluteDate, Frame) -> TimeStampedPVCoordinates

  function ResolveFrame(frames: map<string, Frame>, name: string): (r: Result<Frame, ServiceError>)
    ensures name in frames <==> r.Success?
    ensures r.Success? ==> r.value == frames[name]
    ensures r.Failure? ==> r.error == UnknownFrame(name)
  {
    if name in frames then Success(frames[name]) else Failure(UnknownFrame(name))
  }

  /** Sample `i` can be read: its 6-vector exists and has at least six components. */
  predicate SampleReadable(ephem: seq<seq<real>>, i: nat) {
    i < |ephem| && 6 <= |ephem[i]|
  }

  /** The components of a state vector, position first. */
  function StateVector(pv: TimeStampedPVCoordinates): (v: seq<real>)
    ensures |v| == 6
  {
    [pv.position.x, pv.position.y, pv.position.z, pv.velocity.x, pv.velocity.y, pv.velocity.z]
  }

  /** One decoded sample: the date is J2000 shifted by `t`, the position is
      components 0-2 and the velocity components 3-5 of `v`; components past
      the sixth are ignored. */
  function DecodeSample(t: real, v: seq<real>, frame: Frame): (o: CartesianOrbit)
    requires 6 <= |v|
    ensures DurationFrom(o.pv.date, J2000_EPOCH) == t
    ensures StateVector(o.pv) == v[..6]
    ensures o.frame == frame && o.mu == EGM96_EARTH_MU
  {
    CartesianOrbit(
      TimeStampedPVCoordinates(ShiftedBy(J2000_EPOCH, t), Vector3D(v[0], v[1], v[2]), Vector3D(v[3], v[4], v[5])),
      frame, EGM96_EARTH_MU)
  }

  /** Encoding a decoded state gives the request's sample back. */
  lemma DecodeEncode(o: CartesianOrbit)
    requires o.mu == EGM96_EARTH_MU
    ensures DecodeSample(DurationFrom(o.pv.date, J2000_EPOCH), StateVector(o.pv), o.frame) == o
  {
  }

  /** The decoded states, one per time entry, as a reference for the loop below. */
  function DecodedStates(time: seq<real>, ephem: seq<seq<real>>, frame: Frame): (s: seq<CartesianOrbit>)
    requires forall i :: 0 <= i < |time| ==> SampleReadable(ephem, i)
    ensures |s| == |time|
  {
    seq(|time|, i requires 0 <= i < |time| && SampleReadable(ephem, i) => DecodeSample(time[i], ephem[i], frame))
  }

  /** The decoding loop (UtilitiesService.java, lines 70-78): one Cartesian
      orbit in the source frame per time entry. Each sample's 6-vector is read
      before its orbit is built, so an unreadable sample fails with its index,
      and the first readable one fails if the frame is not pseudo-inertial. */
  method DecodeStates(time: seq<real>, ephem: seq<seq<real>>, frame: Frame)
    returns (r: Result<seq<CartesianOrbit>, ServiceError>)
    ensures r.Success? <==>
      && (forall i :: 0 <= i < |time| ==> SampleReadable(ephem, i))
      && (|time| == 0 || frame.pseudoInertial)
    ensures r.Success? ==> r.value == DecodedStates(time, ephem, frame)
    ensures r.Failure? ==> r.error.MalformedSample? || r.error == NonInertialFrame(frame.name)
    ensures r.Failure? && r.error.MalformedSample? ==>
      && r.error.index < |time|
      && !SampleReadable(ephem, r.error.index)
      && (forall j :: 0 <= j < r.error.index ==> SampleReadable(ephem, j))
      && (r.error.index == 0 || frame.pseudoInertial)
    ensures r.Failure? && r.error.NonInertialFrame? ==>
      !frame.pseudoInertial && 0 < |time| && SampleReadable(ephem, 0)
  {
    var states: seq<CartesianOrbit> := [];
    for i := 0 to |time|
      invariant |states| == i
      invariant 0 < i ==> frame.pseudoInertial
      invariant forall j :: 0 <= j < i ==>
                  SampleReadable(ephem, j) && states[j] == DecodeSample(time[j], ephem[j], frame)
    {
      if !SampleReadable(ephem, i) {
        return Failure(MalformedSample(i));
      }
      if !frame.pseudoInertial {
        return Failure(NonInertialFrame(frame.name));
      }
      states := states + [DecodeSample(time[i], ephem[i], frame)];
    }
    return Success(states);
  }

  /** The whole handler, with the step checked before the loop runs (see
      Resampling.ResampleChecked). Errors come in the order the handler meets
      them: source frame, destination frame, samples and the source frame's
      fitness for orbits, step. On success the
      output holds the interpolated state, in the destination frame, at each
      date of the resampling grid. */
  method InterpolateEphemeris(req: InterpolateEphemerisInput, frames: map<string, Frame>, interpolate: Interpolator)
    returns (r: Result<seq<TimeStampedPVCoordinates>, ServiceError>, ghost times: seq<AbsoluteDate>)
    ensures req.sourceFrame !in frames ==> r == Failure(UnknownFrame(req.sourceFrame))
    ensures req.sourceFrame in frames && req.destFrame !in frames ==> r == Failure(UnknownFrame(req.destFrame))
    ensures r.Failure? && r.error.UnknownFrame? ==> req.sourceFrame !in frames || req.destFrame !in frames
    ensures r.Failure? && r.error.MalformedSample? ==>
      && req.sourceFrame in frames && req.destFrame in frames
      && r.error.index < |req.time|
      && !SampleReadable(req.ephem, r.error.index)
      && (forall j :: 0 <= j < r.error.index ==> SampleReadable(req.ephem, j))
      && (r.error.index == 0 || frames[req.sourceFrame].pseudoInertial)
    ensures r.Failure? && r.error.NonInertialFrame? ==>
      && req.sourceFrame in frames && req.destFrame in frames
      && r.error.name == frames[req.sourceFrame].name
      && !frames[req.sourceFrame].pseudoInertial && 0 < |req.time|
      && SampleReadable(req.ephem, 0)
    ensures r.Failure? && r.error.InvalidStepSize? ==>
      && req.sourceFrame in frames && req.destFrame in frames
      && (forall i :: 0 <= i < |req.time| ==> SampleReadable(req.ephem, i))
      && (|req.time| == 0 || frames[req.sourceFrame].pseudoInertial)
      && r.error.stepSize == req.stepSize <= 0.0 && req.interpStart < req.interpEnd
    ensures r.Success? <==>
      && req.sourceFrame in frames && req.destFrame in frames
      && (forall i :: 0 <= i < |req.time| ==> SampleReadable(req.ephem, i))
      && (|req.time| == 0 || frames[req.sourceFrame].pseudoInertial)
      && (0.0 < req.stepSize || req.interpEnd <= req.interpStart)
    ensures r.Success? ==>
      && IsResampleGrid(times, req.interpStart, req.interpEnd, req.stepSize)
      && |r.value| == |times| == SampleCount(req.interpStart, req.interpEnd, req.stepSize)
      && forall i :: 0 <= i < |times| ==>
           r.value[i] == interpolate(DecodedStates(req.time, req.ephem, frames[req.sourceFrame]),
                                     req.numPoints, times[i], frames[req.destFrame])
  {
    times := [];
    var fromFrame :- ResolveFrame(frames, req.sourceFrame);
    var toFrame :- ResolveFrame(frames, req.destFrame);
    var states :- DecodeStates(req.time, req.ephem, fromFrame);
    var start := ShiftedBy(J2000_EPOCH, req.interpStart);
    var end := ShiftedBy(J2000_EPOCH, req.interpEnd);
    var grid := ResampleChecked(start, end, req.stepSize, t => interpolate(states, req.numPoints, t, toFrame));
    if grid.Failure? {
      return Failure(InvalidStepSize(req.stepSize)), times;
    }
    times := grid.value.times;
    r := Success(grid.value.output);
  }
}
